=== FILE: README.md ===
# Matomo decision logic, modelled in Dafny

This project models four small pieces of sequential decision logic from
Matomo. None of them needs I/O once its collaborators become parameters.

- **Archive state** (`archive_state.dfy`, module `ArchiveState`). Each
  (site, period) result of an archive query gets one of three labels:
  `complete`, `incomplete` or `invalidated`. Some results get no label. The
  label comes from three checks applied in a fixed order:
  - the done flags of the archives that were used;
  - whether the archive was built before its range ended;
  - whether a day of the range has a remembered invalidation.

  Results without a label get no metadata. Range, date and timezone
  arithmetic is supplied by a `Calendar` of functions. The remembered days
  come from an invalidator function.
- **Scheduler retry bookkeeping** (`timetable.dfy`, module `Timetables`;
  `scheduler.dfy`, module `Scheduler`). This is the behaviour the retry
  integration test fixes:
  - a retry counter per task name;
  - the outcome rule after a task runs;
  - the `Class.method` task name.

  The timetable is a map-valued record. A scheduling pass is a fold over the
  loaded tasks.
- **Marketplace service client** (`marketplace_service.dfy`, module
  `MarketplaceService`). It covers:
  - the access-token rules of `authenticate` and `hasAccessToken`;
  - the POST request of `download`;
  - the URL `fetch` builds;
  - how a response body becomes a value, an `HTTP_ERROR`, an `API_ERROR`, or
    the `TypeError` PHP raises for an array-valued `error` field.

  The transport, `Http::buildQuery` and `json_decode` are functions inside
  an `Http` value.
- **Marketplace API** (`marketplace_api.dfy`, module `MarketplaceApi`). It
  covers:
  - which service errors `startFreeTrial` rethrows;
  - the exact reply that starts a free trial;
  - when `saveLicenseKey` stores a key;
  - `deleteLicenseKey`;
  - the cache clearing every key change performs.

Shared pieces:
- `wrappers.dfy`: `Option` for PHP's nullable values, and `Result` for values
  or exceptions.
- `php_strings.dfy`: PHP `trim`, `ctype_alnum`, `empty()` on strings, and the
  decimal form of an integer.
- `json.dfy`: the decoded JSON value, and PHP `empty()` on it.

The archive state is an `Option<State>`. The type already rules out any value
other than null, `complete`, `incomplete` or `invalidated`.

## Model

| member | source | states |
|---|---|---|
| ArchiveState.StateNameInjective | core/Archive/ArchiveState.php:24-26 | The three states have three distinct metadata values. |
| ArchiveState.CheckArchiveStates | core/Archive/ArchiveState.php:89-115 | No state iff no used archive id has a stored done flag. `invalidated` iff some used archive is flagged invalidated. `complete` iff some used archive has a flag and none of them is invalidated. Never `incomplete`. |
| ArchiveState.CheckTsArchived | core/Archive/ArchiveState.php:145-164 | Only `complete` is changed, and only to `incomplete`. It becomes `incomplete` exactly when the archive timestamp is at or before the range end, and stays `complete` exactly when it is after. |
| ArchiveState.FirstRememberedDay | core/Archive/ArchiveState.php:131-140 | The index found is the first day of the range that is remembered. No index is found iff no day of the range is remembered. |
| ArchiveState.CheckDaysRememberedToBeIncomplete | core/Archive/ArchiveState.php:120-143 | Nothing changes when no day is remembered, or when the state is already `incomplete` or `invalidated`. From null or `complete`, the result is `incomplete` iff some day of the range is remembered. Otherwise the state is kept, so null can become `incomplete`. |
| ArchiveState.DetermineStateOutcome | core/Archive/ArchiveState.php:63-67 | The whole pipeline, per outcome. `invalidated` iff the stored flags say so; later steps never change it. `complete` iff complete, not built early and no day remembered. `incomplete` iff complete and (built early or a day remembered), or no state and a day remembered. Null iff no state and no day remembered. |
| ArchiveState.PeriodKeyInjective | core/Archive/ArchiveState.php:53 | The period key `date1,date2` determines both dates when the first date has no comma. |
| ArchiveState.GroupTsArchivedKeys | core/Archive/ArchiveState.php:51-56 | A (site, period) pair is grouped iff some archive row carries it. |
| ArchiveState.GroupTsArchivedLastRowWins | core/Archive/ArchiveState.php:51-56 | A grouped pair keeps the `ts_archived` of the last row that carries it. |
| ArchiveState.AddMetadataToResultCollection | core/Archive/ArchiveState.php:43-83 | The last row of each pair decides its state. A determined state is written for that pair as its metadata value `complete`, `incomplete` or `invalidated`. A pair without a state gets nothing and keeps any existing entry. Pairs absent from the rows are untouched. |
| Timetables.IncrementRetryCount | tests/PHPUnit/Integration/RetryScheduledTaskTest.php:38-47 | Raises the task's count by exactly one. It changes no other task's count and no scheduled time. |
| Timetables.ClearRetryCount | tests/PHPUnit/Integration/RetryScheduledTaskTest.php:49-54 | Sets the task's count to zero. It changes no other task's count and no scheduled time. |
| Timetables.IncrementRetryCountTimes | tests/PHPUnit/Integration/RetryScheduledTaskTest.php:43-45 | `n` increments raise the count by `n` and change nothing else. |
| Timetables.ClearAfterIncrements | tests/PHPUnit/Integration/RetryScheduledTaskTest.php:49-54 | After any number of increments, clearing gives zero. Another task's count is unchanged. |
| Timetables.RetryCountScenario | tests/PHPUnit/Integration/RetryScheduledTaskTest.php:28-55 | The test's sequence of increments and clears gives its asserted counts, starting with zero for an unknown task. |
| Scheduler.TaskNameInjective | tests/PHPUnit/Integration/RetryScheduledTaskTest.php:62-84 | The stored name `Class.method` determines the class and the method. |
| Scheduler.ApplyOutcome | tests/PHPUnit/Integration/RetryScheduledTaskTest.php:82-134 | A retryable failure reschedules 3660 seconds after the slot the task was due at and adds one retry. Any other failure keeps the schedule's own time and the retry count. Success keeps the schedule's time and clears the count. No other task's entry changes. |
| Scheduler.RunPass | tests/PHPUnit/Integration/RetryScheduledTaskTest.php:74-83 | A pass leaves the entries of tasks it was not given unchanged. It reports as run only tasks from its list. |
| Scheduler.RunPassEntry | tests/PHPUnit/Integration/RetryScheduledTaskTest.php:74-83 | With distinct task names, each task's entry and run flag after the pass are those of handling that task alone on the starting timetable. |
| Scheduler.DueTaskRuns | tests/PHPUnit/Integration/RetryScheduledTaskTest.php:61-87 | A task whose stored time is at or before `now` runs in the pass. A retryable failure moves it to its stored time plus 3660 and adds one retry; otherwise it moves to its schedule's time, and the count is cleared on success and kept on any other failure. |
| Scheduler.NotDueTaskWaits | tests/PHPUnit/Integration/RetryScheduledTaskTest.php:61-83 | A task that is not yet due does not run and keeps its entry. A task with no entry is only scheduled at its schedule's time. |
| Scheduler.RetryableFailureScenario | tests/PHPUnit/Integration/RetryScheduledTaskTest.php:57-90 | A task stored as due at `now` and handled by a pass 60 seconds later throws a retryable exception and runs. Its next run is `now + 3660` and its retry count is 1. |
| Scheduler.OtherFailureScenario | tests/PHPUnit/Integration/RetryScheduledTaskTest.php:92-124 | A task stored as due at `now` and handled by a pass 60 seconds later throws an ordinary exception and runs. Its next run is the schedule's `now + 50000` and its retry count stays 0. |
| PhpStrings.Trim | plugins/Marketplace/Api/Service.php:142-144 | The result occurs in the input with only trim characters before and after it, and has no trim character at either end. It is empty iff the input is made only of trim characters. |
| PhpStrings.TrimIdempotent | plugins/Marketplace/API.php:143 | Trimming a trimmed key changes nothing. |
| MarketplaceService.Authenticate | plugins/Marketplace/Api/Service.php:42-49 | An empty token (null, `""`, `"0"`) clears the stored token. A non-empty alphanumeric token is stored. Any other token leaves the client unchanged. |
| MarketplaceService.AuthenticateKeepsValidToken | plugins/Marketplace/Api/Service.php:37-49 | A client only ever holds no token or a non-empty alphanumeric token other than `"0"`. |
| MarketplaceService.HasAccessTokenIffStored | plugins/Marketplace/Api/Service.php:64-72 | For such a client, `hasAccessToken` is true iff `getAccessToken` returns a token. |
| MarketplaceService.AuthenticateThenHasToken | plugins/Marketplace/Api/Service.php:42-72 | After `authenticate`, the client has a token iff the new one was accepted, or it was ignored and the old one was present. |
| MarketplaceService.AuthenticateIdempotent | plugins/Marketplace/Api/Service.php:42-49 | Authenticating twice with one token equals authenticating once. |
| MarketplaceService.Download | plugins/Marketplace/Api/Service.php:87-119 | The request is a POST to the given URL. The timeout is 60 seconds unless one is given. The request carries exactly the `access_token` field iff the client has a token. |
| MarketplaceService.ActionUrlInjective | plugins/Marketplace/Api/Service.php:134-137 | When the domain and action contain no `?`, the URL determines the action and the query. |
| MarketplaceService.ActionUrlShape | plugins/Marketplace/Api/Service.php:35-137 | Every action URL starts with the domain followed by `/api/2.0/`. |
| MarketplaceService.FetchRequestCarriesToken | plugins/Marketplace/Api/Service.php:134-139 | `fetch` sends `domain/api/2.0/action?query` with the default 60-second timeout. It sends the token iff one is set. |
| PhpStrings.IntToString | plugins/Marketplace/Api/Service.php:154-155 | The string form of an integer is non-empty, a `-` exactly for a negative value, then decimal digits without a leading zero that denote the absolute value. |
| MarketplaceService.ExceptionMessage | plugins/Marketplace/Api/Service.php:154-155 | The exception message made of the `error` field: null gives `""`, true `"1"` and false `""`, an integer its decimal form, a string itself. There is no message exactly for an array. |
| MarketplaceService.ClassifyBody | plugins/Marketplace/Api/Service.php:140-157 | A blank body gives `''` without decoding. A missing body or one that decodes to null gives an `HTTP_ERROR`. A non-empty scalar `error` field gives an `API_ERROR` carrying its string form; a non-empty array there gives the constructor's `TypeError`, which is not a service exception. A success never has a non-empty `error` field. |
| MarketplaceService.Fetch | plugins/Marketplace/Api/Service.php:132-166 | Transport failures propagate. Classification errors are thrown. Without extended info the decoded value is returned. With it, the response status travels with the decoded data. |
| MarketplaceApi.SetLicenseKey | plugins/Marketplace/API.php:167-174 | Stores the key and clears both the client cache and the invalid-licenses cache. |
| MarketplaceApi.DeleteLicenseKey | plugins/Marketplace/API.php:69-75 | Stores null, clears both caches and returns true. |
| MarketplaceApi.StartFreeTrial | plugins/Marketplace/API.php:85-127 | An invalid plugin name is rejected with the state untouched, before authentication. Otherwise the client authenticates with the stored key. Of the service exceptions only an `HTTP_ERROR` reaches the caller unchanged; transport failures and `TypeError`s do too. Once a reply is fetched the client cache is cleared, and the result is true for an empty 201 reply and the generic free-trial error for any other reply. A failed fetch leaves the client cache as it was. |
| MarketplaceApi.FreeTrialSucceedsIff | plugins/Marketplace/API.php:114-126 | A trial starts iff the name is valid, the status is 201 and the body is blank or decodes to a blank string. |
| MarketplaceApi.FreeTrialErrorMapping | plugins/Marketplace/API.php:106-112 | An `HTTP_ERROR` is rethrown as it is. An `API_ERROR` becomes the generic free-trial error. A failure that is not a service exception is rethrown as it is. |
| MarketplaceApi.SaveLicenseKey | plugins/Marketplace/API.php:139-165 | The client authenticates with the trimmed key whatever the outcome. On success the trimmed key is stored and both caches are cleared. On failure neither the key nor the caches change. |
| MarketplaceApi.SaveLicenseKeyStoresIff | plugins/Marketplace/API.php:148-164 | The key is stored iff validation returned a reply whose `isValid` is non-empty. A reply with an empty `isValid`, or an `API_ERROR`, reports the key as not valid; an `HTTP_ERROR` and every failure that is not a service exception are rethrown. |
| MarketplaceApi.KeyChangeClearsCaches | plugins/Marketplace/API.php:158-174 | Whenever saving or deleting changes the stored key, both caches end up cleared. |

## Left out

- Persistence is not modelled: the timetable's option storage and its serialisation, and the license-key option store. Both are values here.
- Lock backends, concurrency between scheduler processes, logging, and super-user access checks are not modelled.
- `Timetable`, `Scheduler`, `Task` and the schedule classes are not part of this model. Only the behaviour the retry test fixes is modelled, plus three assumed rules that the test, with its single task that is already due, does not fix: a success clears the retry count and moves the task to its schedule's next time; a pass leaves every task missing from the loaded list untouched (`Scheduler.RunPass`); and a task that is not yet due neither runs nor moves (`Scheduler.NotDueTaskWaits`).
- Scheduler.NotDueTaskWaits: a task with no timetable entry is scheduled at its schedule's time and never runs in the pass that first sees it, even when that time has already passed. Neither the retry test nor any source in this model fixes that case; a scheduler that runs such a task at once when its time is past is not modelled.
- Scheduler.ApplyOutcome: the retry delay is measured from the slot the task was due at (its stored time), 3660 seconds later. The retry test stores that slot 60 seconds in the past and then runs the pass, so it cannot tell this apart from 3600 seconds after the wall clock; the scenario lemmas run the pass 60 seconds after the slot in the same way.
- Scheduler.ApplyOutcome: no cap on the number of retries is modelled, because the test asserts none.
- Scheduler.TaskNameOf: only the name of a task without a method parameter is modelled. That is the only case the test uses.
- Schedule arithmetic (daily, specific time) is not modelled. Each task carries the next time its schedule yields.
- `Range`, `Date`, timezones and `Site` are the `Calendar` functions: the range end, the days of a period, and the parsing of `ts_archived`.
- `ArchiveInvalidator` is a function from a site to its remembered days.
- `ArchiveWriter::DONE_INVALIDATED` is taken as 4. `ArchiveWriter` is not part of this model, and no proof depends on the value.
- `in_array` uses loose comparison; the model compares day strings and done flags by equality. They agree for `Y-m-d` day strings and integer flags.
- The result collection keeps only the archive-state metadata for each (site, period). Other metadata names are not modelled.
- HTTP transport, `Http::buildQuery` and `json_decode` are uninterpreted. JSON floats are not modelled, so `empty(0.0)` has no counterpart.
- Response headers are not modelled.
- `download`'s destination path and file writing are not modelled; `fetch` always passes none.
- `Service::getVersion` and `getDomain` only return fields; the model reads `Version` and `Service.domain` directly. `CACHE_TIMEOUT_IN_SECONDS` is unused by the modelled code.

=== FILE: archive_state.dfy ===
/** How the archive state metadata (`complete`, `incomplete`, `invalidated`)
    of a report is derived for each (site, period) pair, from the done flags
    of the archives that were used, the time the archive was built, and the
    days for which invalidations were remembered.

    Range, date and timezone arithmetic is not modelled: a `Calendar` supplies
    the range-end timestamp, the days of a period and the parsing of
    `ts_archived`, and an invalidator function supplies the remembered days. */
module ArchiveState {
  import opened Wrappers
  import PhpStrings

  type SiteId = int
  /** A period key, `date1 + "," + date2`. */
  type Period = string
  type ArchiveId = int
  /** The `done` flag stored with an archive. */
  type DoneFlag = int

  /** `ArchiveWriter::DONE_INVALIDATED`. Every other done flag (`DONE_OK`,
      `DONE_OK_TEMPORARY`, `DONE_PARTIAL`, ...) counts as complete. */
  const DoneInvalidated: DoneFlag := 4

  datatype State = Complete | Incomplete | Invalidated {
    /** The metadata value written to the result collection. */
    function Name(): string {
      match this
      case Complete => "complete"
      case Incomplete => "incomplete"
      case Invalidated => "invalidated"
    }
  }

  /** Distinct states are written as distinct metadata values. */
  lemma StateNameInjective(a: State, b: State)
    ensures a.Name() == b.Name() <==> a == b
  {
  }

  /** Archive ids used to build the result, indexed by period. */
  type ArchiveIds = map<Period, seq<ArchiveId>>
  /** Done flag of every archive, indexed by site, then period, then archive id. */
  type ArchiveStates = map<SiteId, map<Period, map<ArchiveId, DoneFlag>>>

  /** One row of archive data: the site, the two dates of the period and the
      time the archive was built. */
  datatype ArchiveRow = ArchiveRow(idSite: SiteId, date1: string, date2: string, tsArchived: string)

  /** What the date library answers for the modelled code. */
  datatype Calendar = Calendar(
    /** End of the period's range as a timestamp, in the site's timezone. */
    rangeEnd: (SiteId, Period) -> int,
    /** The days (`Y-m-d`) of the period's range, in order. */
    rangeDays: Period -> seq<string>,
    /** `Date::factory($tsArchived)->getTimestamp()`. */
    timestamp: string -> int)

  /** The metadata collection: the archive-state metadata value (`complete`,
      `incomplete` or `invalidated`) written for (site, period). */
  type Collection = map<(SiteId, Period), string>

  function PeriodKey(date1: string, date2: string): Period {
    date1 + "," + date2
  }

  /** Dates never contain a comma, so the period key determines both dates. */
  lemma PeriodKeyInjective(a1: string, a2: string, b1: string, b2: string)
    requires ',' !in a1 && ',' !in b1
    requires PeriodKey(a1, a2) == PeriodKey(b1, b2)
    ensures a1 == b1 && a2 == b2
  {
    PhpStrings.JoinInjective(a1, a2, b1, b2, ',');
  }

  function StoredStates(site: SiteId, period: Period, states: ArchiveStates): map<ArchiveId, DoneFlag> {
    if site in states && period in states[site] then states[site][period] else map[]
  }

  function UsedIds(period: Period, ids: ArchiveIds): set<ArchiveId> {
    if period in ids then set i | i in ids[period] else {}
  }

  /** An archive that was both used for the period and has a stored done flag. */
  predicate IsAvailable(id: ArchiveId, site: SiteId, period: Period, ids: ArchiveIds, states: ArchiveStates) {
    id in StoredStates(site, period, states) && id in UsedIds(period, ids)
  }

  /** State from the done flags of the used archives: none when no used archive
      has a stored flag, `invalidated` when any of them is invalidated, and
      `complete` otherwise. */
  function CheckArchiveStates(site: SiteId, period: Period, ids: ArchiveIds, states: ArchiveStates): (r: Option<State>)
    ensures r == None <==> forall id :: !IsAvailable(id, site, period, ids, states)
    ensures r == Some(Invalidated) <==>
      exists id :: IsAvailable(id, site, period, ids, states) && StoredStates(site, period, states)[id] == DoneInvalidated
    ensures r == Some(Complete) <==>
      && (exists id :: IsAvailable(id, site, period, ids, states))
      && (forall id :: IsAvailable(id, site, period, ids, states) ==> StoredStates(site, period, states)[id] != DoneInvalidated)
    ensures r != Some(Incomplete)
  {
    var stored := StoredStates(site, period, states);
    var used := UsedIds(period, ids);
    // array_intersect_key of the stored flags with the used archive ids
    var available := map id | id in stored && id in used :: stored[id];
    IntersectionMeaning(site, period, ids, states);
    if available == map[] then None
    else if DoneInvalidated in available.Values then Some(Invalidated)
    else Some(Complete)
  }

  lemma IntersectionMeaning(site: SiteId, period: Period, ids: ArchiveIds, states: ArchiveStates)
    ensures var stored := StoredStates(site, period, states);
      var used := UsedIds(period, ids);
      var available := map id | id in stored && id in used :: stored[id];
      && (available == map[] <==> forall id :: !IsAvailable(id, site, period, ids, states))
      && (DoneInvalidated in available.Values <==>
          exists id :: IsAvailable(id, site, period, ids, states) && stored[id] == DoneInvalidated)
  {
    var stored := StoredStates(site, period, states);
    var used := UsedIds(period, ids);
    var available := map id | id in stored && id in used :: stored[id];
    if forall id :: !IsAvailable(id, site, period, ids, states) {
      forall id ensures id !in available {
        assert !IsAvailable(id, site, period, ids, states);
      }
      assert available.Keys == {};
    }
    forall id | IsAvailable(id, site, period, ids, states)
      ensures available != map[]
    {
      assert id in available;
    }
    if forall id :: id in available ==> available[id] != DoneInvalidated {
      assert DoneInvalidated !in available.Values;
    } else {
      var id :| id in available && available[id] == DoneInvalidated;
      assert IsAvailable(id, site, period, ids, states);
    }
    forall id | IsAvailable(id, site, period, ids, states) && stored[id] == DoneInvalidated
      ensures DoneInvalidated in available.Values
    {
      assert available[id] == DoneInvalidated;
    }
  }

  /** Only a `complete` state is examined: an archive built at or before the end
      of its range may miss later data, so it is downgraded to `incomplete`. */
  function CheckTsArchived(state: Option<State>, rangeEnd: int, tsArchived: int): (r: Option<State>)
    ensures state != Some(Complete) ==> r == state
    ensures state == Some(Complete) ==> (r == Some(Incomplete) <==> tsArchived <= rangeEnd)
    ensures state == Some(Complete) ==> (r == Some(Complete) <==> tsArchived > rangeEnd)
    ensures r == Some(Incomplete) || r == state
  {
    if state != Some(Complete) then state
    else if tsArchived <= rangeEnd then Some(Incomplete)
    else state
  }

  /** Index of the first day of `days` that is in `remembered`, if any. */
  function FirstRememberedDay(days: seq<string>, remembered: seq<string>): (r: Option<nat>)
    ensures r.Some? ==> r.value < |days| && days[r.value] in remembered
    ensures r.Some? ==> forall j :: 0 <= j < r.value ==> days[j] !in remembered
    ensures r.None? <==> forall j :: 0 <= j < |days| ==> days[j] !in remembered
  {
    if |days| == 0 then None
    else if days[0] in remembered then Some(0)
    else
      match FirstRememberedDay(days[1..], remembered)
      case None => None
      case Some(i) => Some(i + 1)
  }

  predicate SomeDayRemembered(days: seq<string>, remembered: seq<string>) {
    exists j :: 0 <= j < |days| && days[j] in remembered
  }

  /** A missing or `complete` state becomes `incomplete` when some day of the
      range has a remembered invalidation; `incomplete` and `invalidated` are
      kept, and nothing changes when no day is remembered at all. */
  function CheckDaysRememberedToBeIncomplete(state: Option<State>, rangeDays: seq<string>, remembered: seq<string>): (r: Option<State>)
    ensures |remembered| == 0 || state == Some(Incomplete) || state == Some(Invalidated) ==> r == state
    ensures state == None || state == Some(Complete) ==>
      (r == Some(Incomplete) <==> SomeDayRemembered(rangeDays, remembered))
    ensures r == Some(Incomplete) || r == state
  {
    if |remembered| == 0 || state == Some(Incomplete) || state == Some(Invalidated) then state
    else
      match FirstRememberedDay(rangeDays, remembered)
      case Some(_) => Some(Incomplete)
      case None => state
  }

  /** The three checks in the order the source applies them. */
  function DetermineState(site: SiteId, period: Period, tsArchived: string, ids: ArchiveIds,
                          states: ArchiveStates, cal: Calendar, remembered: seq<string>): Option<State>
  {
    var s1 := CheckArchiveStates(site, period, ids, states);
    var s2 := CheckTsArchived(s1, cal.rangeEnd(site, period), cal.timestamp(tsArchived));
    CheckDaysRememberedToBeIncomplete(s2, cal.rangeDays(period), remembered)
  }

  /** The outcome of the whole pipeline in terms of its three inputs: whether
      any used archive is invalidated, whether the archive was built too early,
      and whether a day of the range is remembered as invalidated. */
  lemma DetermineStateOutcome(site: SiteId, period: Period, tsArchived: string, ids: ArchiveIds,
                              states: ArchiveStates, cal: Calendar, remembered: seq<string>)
    ensures var base := CheckArchiveStates(site, period, ids, states);
      var early := cal.timestamp(tsArchived) <= cal.rangeEnd(site, period);
      var dayHit := |remembered| > 0 && SomeDayRemembered(cal.rangeDays(period), remembered);
      var r := DetermineState(site, period, tsArchived, ids, states, cal, remembered);
      && (r == Some(Invalidated) <==> base == Some(Invalidated))
      && (r == Some(Complete) <==> base == Some(Complete) && !early && !dayHit)
      && (r == Some(Incomplete) <==> (base == Some(Complete) && (early || dayHit)) || (base == None && dayHit))
      && (r == None <==> base == None && !dayHit)
  {
  }

  /** Groups the archive rows by (site, period key); a later row overwrites the
      `ts_archived` of an earlier row with the same site and period. */
  function GroupTsArchived(rows: seq<ArchiveRow>): map<(SiteId, Period), string> {
    if |rows| == 0 then map[]
    else
      var last := rows[|rows| - 1];
      GroupTsArchived(rows[..|rows| - 1])[RowKey(last) := last.tsArchived]
  }

  /** A (site, period) pair is grouped iff some row carries it. */
  lemma {:induction false} GroupTsArchivedKeys(rows: seq<ArchiveRow>, k: (SiteId, Period))
    ensures k in GroupTsArchived(rows) <==> exists i :: 0 <= i < |rows| && RowKey(rows[i]) == k
  {
    if |rows| > 0 {
      var prefix := rows[..|rows| - 1];
      GroupTsArchivedKeys(prefix, k);
      if k in GroupTsArchived(prefix) {
        var i :| 0 <= i < |prefix| && RowKey(prefix[i]) == k;
        assert RowKey(rows[i]) == k;
      }
      if exists i :: 0 <= i < |rows| && RowKey(rows[i]) == k {
        var i :| 0 <= i < |rows| && RowKey(rows[i]) == k;
        if i < |rows| - 1 {
          assert RowKey(prefix[i]) == k;
        }
      }
    }
  }

  /** The grouped `ts_archived` of a pair is that of the last row carrying it. */
  lemma {:induction false} GroupTsArchivedLastRowWins(rows: seq<ArchiveRow>, i: nat)
    requires i < |rows| && IsLastRowFor(rows, i, RowKey(rows[i]))
    ensures RowKey(rows[i]) in GroupTsArchived(rows)
    ensures GroupTsArchived(rows)[RowKey(rows[i])] == rows[i].tsArchived
  {
    if i < |rows| - 1 {
      var prefix := rows[..|rows| - 1];
      assert prefix[i] == rows[i];
      GroupTsArchivedLastRowWins(prefix, i);
    }
  }

  function RowKey(row: ArchiveRow): (SiteId, Period) {
    (row.idSite, PeriodKey(row.date1, row.date2))
  }

  /** Row `i` has key `k` and no later row has it. */
  predicate IsLastRowFor(rows: seq<ArchiveRow>, i: int, k: (SiteId, Period)) {
    && 0 <= i < |rows|
    && RowKey(rows[i]) == k
    && forall j :: i < j < |rows| ==> RowKey(rows[j]) != k
  }

  /** Adds the archive state of every (site, period) of the archive rows whose
      state could be determined; pairs without a state get no metadata, and
      entries of other pairs are left as they were. */
  function AddMetadataToResultCollection(collection: Collection, rows: seq<ArchiveRow>, ids: ArchiveIds,
                                         states: ArchiveStates, cal: Calendar,
                                         invalidator: SiteId -> seq<string>): (r: Collection)
    ensures forall k :: (forall i :: 0 <= i < |rows| ==> RowKey(rows[i]) != k) ==>
      (k in r <==> k in collection) && (k in collection ==> r[k] == collection[k])
    ensures forall i :: 0 <= i < |rows| && IsLastRowFor(rows, i, RowKey(rows[i])) ==>
      var k := RowKey(rows[i]);
      var s := DetermineState(k.0, k.1, rows[i].tsArchived, ids, states, cal, invalidator(k.0));
      && (s.Some? ==> k in r && r[k] == s.value.Name())
      && (s.None? ==> (k in r <==> k in collection) && (k in collection ==> r[k] == collection[k]))
  {
    var grouped := GroupTsArchived(rows);
    forall k | forall i :: 0 <= i < |rows| ==> RowKey(rows[i]) != k
      ensures k !in grouped
    {
      GroupTsArchivedKeys(rows, k);
    }
    forall i | 0 <= i < |rows| && IsLastRowFor(rows, i, RowKey(rows[i]))
      ensures RowKey(rows[i]) in grouped && grouped[RowKey(rows[i])] == rows[i].tsArchived
    {
      GroupTsArchivedLastRowWins(rows, i);
    }
    var added := StateNames(grouped, ids, states, cal, invalidator);
    collection + added
  }

  /** The metadata value of every grouped pair whose state is determined. Its
      contract only spells out the map comprehension pointwise, so that the
      proof of `AddMetadataToResultCollection` stays small. */
  function StateNames(grouped: map<(SiteId, Period), string>, ids: ArchiveIds, states: ArchiveStates,
                      cal: Calendar, invalidator: SiteId -> seq<string>): (r: Collection)
    ensures forall k :: k in r <==>
      k in grouped && DetermineState(k.0, k.1, grouped[k], ids, states, cal, invalidator(k.0)).Some?
    ensures forall k :: k in r ==>
      r[k] == DetermineState(k.0, k.1, grouped[k], ids, states, cal, invalidator(k.0)).value.Name()
  {
    map k | k in grouped && DetermineState(k.0, k.1, grouped[k], ids, states, cal, invalidator(k.0)).Some?
      :: DetermineState(k.0, k.1, grouped[k], ids, states, cal, invalidator(k.0)).value.Name()
  }
}

=== FILE: json.dfy ===
/** The value `json_decode($body, true)` produces, as far as the Marketplace
    code inspects it. JSON objects become associative arrays (`JObject`), JSON
    lists become plain arrays (`JList`). Floating-point numbers are not
    modelled. */
module Json {
  import PhpStrings

  datatype Json =
    | JNull
    | JBool(b: bool)
    | JInt(i: int)
    | JStr(s: string)
    | JList(items: seq<Json>)
    | JObject(fields: map<string, Json>)

  /** PHP `empty($v)` on a decoded value. */
  predicate IsEmpty(v: Json) {
    match v
    case JNull => true
    case JBool(b) => !b
    case JInt(i) => i == 0
    case JStr(s) => PhpStrings.IsEmptyString(s)
    case JList(items) => |items| == 0
    case JObject(fields) => |fields| == 0
  }

  /** PHP `$v[$key]` read under `empty()` for a non-numeric string key: the
      entry of an associative array, and null for every other value (a list
      has only integer keys, a scalar or string has no such offset). */
  function Field(v: Json, key: string): Json {
    if v.JObject? && key in v.fields then v.fields[key] else JNull
  }
}

=== FILE: marketplace_api.dfy ===
/** The license-key and free-trial operations of the Marketplace API: which
    service errors reach the caller, when a free trial counts as started, and
    when a license key is stored. Super-user access checks are not modelled. */
module MarketplaceApi {
  import opened Wrappers
  import opened Json
  import opened MarketplaceService
  import PhpStrings

  /** The state the API works on: the stored license key, the service client,
      and whether the client's response cache and the invalid-licenses cache
      may hold entries. */
  datatype Env = Env(licenseKey: Option<string>, service: Service,
                     clientCacheFilled: bool, invalidLicensesCacheFilled: bool)

  /** What an API call throws. */
  datatype ApiFailure =
    | Rethrown(failure: Failure)
    | InvalidPluginName
    | FreeTrialFailed
    | LicenseKeyNotValid

  /** The state after a call, and its return value or exception. */
  datatype Outcome = Outcome(env: Env, result: Result<bool, ApiFailure>)

  /** Stores (or, for null, removes) the license key and clears both caches. */
  function SetLicenseKey(env: Env, key: Option<string>): (r: Env)
    ensures r.licenseKey == key && r.service == env.service
    ensures !r.clientCacheFilled && !r.invalidLicensesCacheFilled
  {
    env.(licenseKey := key, clientCacheFilled := false, invalidLicensesCacheFilled := false)
  }

  /** Removes the license key; always returns true. */
  function DeleteLicenseKey(env: Env): (r: Outcome)
    ensures r.result == Success(true)
    ensures r.env.licenseKey == None && r.env.service == env.service
    ensures !r.env.clientCacheFilled && !r.env.invalidLicensesCacheFilled
  {
    Outcome(SetLicenseKey(env, None), Success(true))
  }

  /** The request parameters of a free-trial request. */
  function FreeTrialParams(numUsers: int, numWebsites: int): seq<(string, Param)> {
    [("num_users", PInt(numUsers)), ("num_websites", PInt(numWebsites))]
  }

  /** The only accepted free-trial reply: status 201 and a body that is a
      string trimming to nothing. */
  predicate FreeTrialAccepted(reply: Fetched) {
    match reply
    case Extended(status, data) => status == 201 && data.JStr? && PhpStrings.Trim(data.s) == ""
    case Plain(_) => false
  }

  /** Starts a free trial of a plugin: the plugin name is checked before
      anything else, the client authenticates with the stored license key,
      an `HTTP_ERROR` and every failure that is not a service exception reach
      the caller unchanged, every other service error and every reply other than an empty 201
      becomes the generic free-trial error. */
  function StartFreeTrial(env: Env, pluginName: string, isValidPluginName: string -> bool,
                          numUsers: int, numWebsites: int, http: Http): (r: Outcome)
    ensures !isValidPluginName(pluginName) ==> r == Outcome(env, Failure(InvalidPluginName))
    ensures isValidPluginName(pluginName) ==>
      && r.env.service == Authenticate(env.service, env.licenseKey)
      && r.env.licenseKey == env.licenseKey
      && r.env.invalidLicensesCacheFilled == env.invalidLicensesCacheFilled
    ensures r.result.Success? ==> r.result.value && !r.env.clientCacheFilled
    ensures r.result.Failure? && r.result.error.Rethrown? ==>
      (r.result.error.failure.ServiceException? ==> r.result.error.failure.code == HttpError)
    ensures isValidPluginName(pluginName) ==>
      var reply := Fetch(Authenticate(env.service, env.licenseKey), "plugins/" + pluginName + "/freeTrial",
                         FreeTrialParams(numUsers, numWebsites), true, http);
      reply.Success? ==>
        && !r.env.clientCacheFilled
        && (FreeTrialAccepted(reply.value) ==> r.result == Success(true))
        && (!FreeTrialAccepted(reply.value) ==> r.result == Failure(FreeTrialFailed))
    ensures isValidPluginName(pluginName) ==>
      var reply := Fetch(Authenticate(env.service, env.licenseKey), "plugins/" + pluginName + "/freeTrial",
                         FreeTrialParams(numUsers, numWebsites), true, http);
      reply.Failure? ==> r.env.clientCacheFilled == env.clientCacheFilled
  {
    if !isValidPluginName(pluginName) then Outcome(env, Failure(InvalidPluginName))
    else
      var svc := Authenticate(env.service, env.licenseKey);
      var env1 := env.(service := svc);
      var reply := Fetch(svc, "plugins/" + pluginName + "/freeTrial", FreeTrialParams(numUsers, numWebsites), true, http);
      match reply
      case Failure(ServiceException(HttpError, _)) => Outcome(env1, Failure(Rethrown(reply.error)))
      case Failure(ServiceException(ApiError, _)) => Outcome(env1, Failure(FreeTrialFailed))
      case Failure(_) => Outcome(env1, Failure(Rethrown(reply.error)))
      case Success(fetched) =>
        var env2 := env1.(clientCacheFilled := false);
        if FreeTrialAccepted(fetched) then Outcome(env2, Success(true))
        else Outcome(env2, Failure(FreeTrialFailed))
  }

  /** The request a free trial sends, after authenticating with the stored
      license key. */
  function FreeTrialRequest(env: Env, pluginName: string, numUsers: int, numWebsites: int, http: Http): Request {
    FetchRequest(Authenticate(env.service, env.licenseKey), "plugins/" + pluginName + "/freeTrial",
                 FreeTrialParams(numUsers, numWebsites), http)
  }

  /** A free trial starts exactly when the plugin name is valid, the server
      answers with status 201, and the body is blank or decodes to a string
      that is blank. */
  lemma FreeTrialSucceedsIff(env: Env, pluginName: string, isValidPluginName: string -> bool,
                                                numUsers: int, numWebsites: int, http: Http)
    ensures var r := StartFreeTrial(env, pluginName, isValidPluginName, numUsers, numWebsites, http);
      var sent := http.send(FreeTrialRequest(env, pluginName, numUsers, numWebsites, http));
      r.result.Success? <==>
        && isValidPluginName(pluginName)
        && sent.Success?
        && sent.value.status == 201
        && sent.value.data.Some?
        && var body := PhpStrings.Trim(sent.value.data.value);
           || body == ""
           || (http.decode(body).JStr? && PhpStrings.Trim(http.decode(body).s) == "")
  {
  }

  /** Failures during a free trial: an `HTTP_ERROR`, a transport failure and
      a `TypeError` are rethrown as they are, an `API_ERROR` becomes the
      generic free-trial error. */
  lemma FreeTrialErrorMapping(env: Env, pluginName: string, isValidPluginName: string -> bool,
                              numUsers: int, numWebsites: int, http: Http)
    requires isValidPluginName(pluginName)
    ensures var r := StartFreeTrial(env, pluginName, isValidPluginName, numUsers, numWebsites, http);
      var reply := Fetch(Authenticate(env.service, env.licenseKey), "plugins/" + pluginName + "/freeTrial",
                         FreeTrialParams(numUsers, numWebsites), true, http);
      && (reply.Failure? && reply.error.ServiceException? && reply.error.code == HttpError ==>
            r.result == Failure(Rethrown(reply.error)))
      && (reply.Failure? && reply.error.ServiceException? && reply.error.code == ApiError ==>
            r.result == Failure(FreeTrialFailed))
      && (reply.Failure? && !reply.error.ServiceException? ==> r.result == Failure(Rethrown(reply.error)))
  {
  }

  /** The reply of `consumer/validate` says the key is valid. */
  predicate ReplySaysValid(consumer: Json) {
    !IsEmpty(Field(consumer, "isValid"))
  }

  /** Validates a license key against the Marketplace and stores it when the
      reply says it is valid. The key is trimmed first and the client keeps
      the trimmed key as its token whatever the outcome. An `HTTP_ERROR` and
      every failure that is not a service exception reach the caller; any
      other service error reads
      as an empty reply, so the key is reported invalid. */
  function SaveLicenseKey(env: Env, licenseKey: string, http: Http): (r: Outcome)
    ensures r.env.service == Authenticate(env.service, Some(PhpStrings.Trim(licenseKey)))
    ensures r.result.Success? ==>
      && r.result.value
      && r.env.licenseKey == Some(PhpStrings.Trim(licenseKey))
      && !r.env.clientCacheFilled && !r.env.invalidLicensesCacheFilled
    ensures r.result.Failure? ==>
      && r.env.licenseKey == env.licenseKey
      && r.env.clientCacheFilled == env.clientCacheFilled
      && r.env.invalidLicensesCacheFilled == env.invalidLicensesCacheFilled
  {
    var key := PhpStrings.Trim(licenseKey);
    var svc := Authenticate(env.service, Some(key));
    var env1 := env.(service := svc);
    var reply := Fetch(svc, "consumer/validate", [], false, http);
    match reply
    case Failure(ServiceException(HttpError, _)) => Outcome(env1, Failure(Rethrown(reply.error)))
    case Failure(TransportException(_)) => Outcome(env1, Failure(Rethrown(reply.error)))
    case Failure(MessageTypeError) => Outcome(env1, Failure(Rethrown(reply.error)))
    case _ =>
      // an API error leaves an empty array as the reply
      var consumer := if reply.Success? && reply.value.Plain? then reply.value.value else JList([]);
      if !ReplySaysValid(consumer) then Outcome(env1, Failure(LicenseKeyNotValid))
      else Outcome(SetLicenseKey(env1, Some(key)), Success(true))
  }

  /** A key is stored exactly when validation returned a reply whose
      `isValid` is non-empty; an `API_ERROR` reports the key as not valid, an
      `HTTP_ERROR`, a transport failure and a `TypeError` are rethrown. */
  lemma SaveLicenseKeyStoresIff(env: Env, licenseKey: string, http: Http)
    ensures var r := SaveLicenseKey(env, licenseKey, http);
      var svc := Authenticate(env.service, Some(PhpStrings.Trim(licenseKey)));
      var reply := Fetch(svc, "consumer/validate", [], false, http);
      && (r.result.Success? <==> reply.Success? && ReplySaysValid(reply.value.value))
      && (reply.Success? && !ReplySaysValid(reply.value.value) ==> r.result == Failure(LicenseKeyNotValid))
      && (reply.Success? && ReplySaysValid(reply.value.value) ==> r.result == Success(true))
      && (reply.Failure? && reply.error.ServiceException? && reply.error.code == ApiError ==>
            r.result == Failure(LicenseKeyNotValid))
      && (reply.Failure? && reply.error.ServiceException? && reply.error.code == HttpError ==>
            r.result == Failure(Rethrown(reply.error)))
      && (reply.Failure? && !reply.error.ServiceException? ==> r.result == Failure(Rethrown(reply.error)))
  {
  }

  /** Whenever a call changes the stored license key, both caches end up
      cleared. */
  lemma KeyChangeClearsCaches(env: Env, licenseKey: string, http: Http)
    ensures var r := SaveLicenseKey(env, licenseKey, http);
      r.env.licenseKey != env.licenseKey ==> !r.env.clientCacheFilled && !r.env.invalidLicensesCacheFilled
    ensures var r := DeleteLicenseKey(env);
      r.env.licenseKey != env.licenseKey ==> !r.env.clientCacheFilled && !r.env.invalidLicensesCacheFilled
  {
  }
}

=== FILE: marketplace_service.dfy ===
/** The Marketplace web-service client: the access token it authenticates
    with, the POST request it sends, the URL of an API action, and how a
    response body becomes a value, an `HTTP_ERROR`, an `API_ERROR` or a
    `TypeError`.

    The HTTP transport, `Http::buildQuery` and `json_decode` are not modelled;
    they are the functions of an `Http` value. */
module MarketplaceService {
  import opened Wrappers
  import opened Json
  import PhpStrings

  /** API version the client talks to. */
  const Version: string := "2.0"
  /** Default request timeout, in seconds. */
  const HttpRequestTimeout: int := 60

  const ReadErrorMessage: string := "There was an error reading the response from the Marketplace: Please try again later."

  datatype Service = Service(domain: string, accessToken: Option<string>)

  /** A freshly constructed client has no access token. */
  function NewService(domain: string): Service {
    Service(domain, None)
  }

  /** PHP `empty()` on a nullable string: null, `""` and `"0"`. */
  predicate IsEmptyToken(token: Option<string>) {
    token.None? || PhpStrings.IsEmptyString(token.value)
  }

  /** An empty token logs the client out, an alphanumeric token replaces the
      current one, and any other token is ignored. */
  function Authenticate(svc: Service, token: Option<string>): (r: Service)
    ensures r.domain == svc.domain
    ensures IsEmptyToken(token) ==> r.accessToken == None
    ensures !IsEmptyToken(token) && PhpStrings.IsAlnum(token.value) ==> r.accessToken == token
    ensures !IsEmptyToken(token) && !PhpStrings.IsAlnum(token.value) ==> r == svc
  {
    if IsEmptyToken(token) then svc.(accessToken := None)
    else if PhpStrings.IsAlnum(token.value) then svc.(accessToken := token)
    else svc
  }

  function GetAccessToken(svc: Service): Option<string> {
    svc.accessToken
  }

  predicate HasAccessToken(svc: Service) {
    !IsEmptyToken(svc.accessToken)
  }

  /** The tokens a client can hold: none, or a non-empty alphanumeric string
      other than `"0"` (which PHP considers empty). */
  predicate ValidToken(svc: Service) {
    svc.accessToken.None? || (PhpStrings.IsAlnum(svc.accessToken.value) && svc.accessToken.value != "0")
  }

  /** Authenticating keeps the token valid, and a client built from scratch
      starts valid. */
  lemma AuthenticateKeepsValidToken(svc: Service, token: Option<string>)
    requires ValidToken(svc)
    ensures ValidToken(Authenticate(svc, token))
    ensures ValidToken(NewService(svc.domain))
  {
  }

  /** For a valid token, having an access token is the same as a token being
      stored. */
  lemma HasAccessTokenIffStored(svc: Service)
    requires ValidToken(svc)
    ensures HasAccessToken(svc) <==> GetAccessToken(svc).Some?
  {
  }

  /** After authenticating, the client holds a token exactly when the new
      token was accepted, or when it was ignored and the old one was held. */
  lemma AuthenticateThenHasToken(svc: Service, token: Option<string>)
    ensures HasAccessToken(Authenticate(svc, token)) <==>
      || (!IsEmptyToken(token) && PhpStrings.IsAlnum(token.value))
      || (!IsEmptyToken(token) && HasAccessToken(svc))
  {
  }

  /** Authenticating twice with the same token is authenticating once. */
  lemma AuthenticateIdempotent(svc: Service, token: Option<string>)
    ensures Authenticate(Authenticate(svc, token), token) == Authenticate(svc, token)
  {
  }

  /** A POST request as handed to the transport. */
  datatype Request = Request(httpMethod: string, url: string, timeout: int,
                             post: Option<map<string, string>>, extendedInfo: bool)

  /** The request `download` sends: a POST carrying the access token when one
      is set, with a 60-second timeout unless another is given. */
  function Download(svc: Service, url: string, timeout: Option<int>, extendedInfo: bool): (r: Request)
    ensures r.httpMethod == "POST" && r.url == url && r.extendedInfo == extendedInfo
    ensures timeout.None? ==> r.timeout == HttpRequestTimeout
    ensures timeout.Some? ==> r.timeout == timeout.value
    ensures r.post.Some? <==> HasAccessToken(svc)
    ensures r.post.Some? ==> r.post.value.Keys == {"access_token"} && r.post.value["access_token"] == svc.accessToken.value
  {
    var post := if !IsEmptyToken(svc.accessToken) then Some(map["access_token" := svc.accessToken.value]) else None;
    Request("POST", url, timeout.GetOr(HttpRequestTimeout), post, extendedInfo)
  }

  function Endpoint(svc: Service): string {
    svc.domain + "/api/" + Version + "/"
  }

  /** The URL of an API action: endpoint, action, `?`, query string. */
  function ActionUrl(svc: Service, action: string, query: string): string {
    Endpoint(svc) + action + "?" + query
  }

  /** When neither the domain nor the action contains `?`, the URL of an
      action determines the action and the query string. */
  lemma ActionUrlInjective(svc: Service, action1: string, query1: string, action2: string, query2: string)
    requires '?' !in svc.domain && '?' !in action1 && '?' !in action2
    requires ActionUrl(svc, action1, query1) == ActionUrl(svc, action2, query2)
    ensures action1 == action2 && query1 == query2
  {
    var e := Endpoint(svc);
    assert '?' !in e + action1 && '?' !in e + action2;
    PhpStrings.JoinInjective(e + action1, query1, e + action2, query2, '?');
    assert action1 == (e + action1)[|e|..];
    assert action2 == (e + action2)[|e|..];
  }

  /** The URL starts with the domain followed by `/api/2.0/`. */
  lemma ActionUrlShape(svc: Service, action: string, query: string)
    ensures var url := ActionUrl(svc, action, query);
      var prefix := svc.domain + "/api/2.0/";
      |prefix| <= |url| && url[..|prefix|] == prefix
  {
  }

  /** A request parameter value. */
  datatype Param = PInt(i: int) | PStr(s: string)

  /** Status and body of an HTTP response; the body may be missing. */
  datatype Response = Response(status: int, data: Option<string>)

  /** The collaborators `fetch` relies on: the transport (which throws on
      network failures), `Http::buildQuery` and `json_decode($s, true)`. The
      decoder answers `JNull` for malformed input as well as for `null`. */
  datatype Http = Http(
    send: Request -> Result<Response, string>,
    buildQuery: seq<(string, Param)> -> string,
    decode: string -> Json)

  datatype ErrorCode = HttpError | ApiError

  /** What `fetch` throws: a service exception with its code and message,
      whatever the transport threw, or the `TypeError` PHP raises when the
      `error` field handed to the exception constructor is an array. Only the
      first is a `Service\Exception`. */
  datatype Failure =
    | ServiceException(code: ErrorCode, message: string)
    | TransportException(reason: string)
    | MessageTypeError

  /** The string an exception constructor makes of a decoded value outside
      strict typing: scalars are converted, arrays are refused. */
  function ExceptionMessage(v: Json): (r: Option<string>)
    ensures r.None? <==> v.JList? || v.JObject?
    ensures v.JStr? ==> r == Some(v.s)
    ensures v.JNull? ==> r == Some("")
    ensures v.JBool? ==> r == Some(if v.b then "1" else "")
    ensures v.JInt? ==> r.Some? && r.value == PhpStrings.IntToString(v.i)
  {
    match v
    case JNull => Some("")
    case JBool(b) => Some(if b then "1" else "")
    case JInt(i) => Some(PhpStrings.IntToString(i))
    case JStr(s) => Some(s)
    case JList(_) => None
    case JObject(_) => None
  }

  /** What `fetch` returns: the decoded result, or, with extended info, the
      response with its body replaced by the decoded result. */
  datatype Fetched = Plain(value: Json) | Extended(status: int, data: Json)

  /** The body of a response, classified: a body that trims to nothing is the
      empty string, an undecodable or missing body is an `HTTP_ERROR`, a
      decoded result with a non-empty scalar `error` field is an `API_ERROR`
      carrying that field as a string, a non-empty array there makes the
      exception constructor fail with a `TypeError`, and anything else is the
      decoded result. */
  function ClassifyBody(body: Option<string>, decode: string -> Json): (r: Result<Json, Failure>)
    ensures body.Some? && PhpStrings.Trim(body.value) == "" ==> r == Success(JStr(""))
    ensures body.None? ==> r == Failure(ServiceException(HttpError, ReadErrorMessage))
    ensures body.Some? && PhpStrings.Trim(body.value) != "" ==>
      var decoded := decode(PhpStrings.Trim(body.value));
      var message := ExceptionMessage(Field(decoded, "error"));
      && (decoded == JNull ==> r == Failure(ServiceException(HttpError, ReadErrorMessage)))
      && (decoded != JNull && !IsEmpty(Field(decoded, "error")) && message.Some? ==>
            r == Failure(ServiceException(ApiError, message.value)))
      && (decoded != JNull && !IsEmpty(Field(decoded, "error")) && message.None? ==>
            r == Failure(MessageTypeError))
      && (decoded != JNull && IsEmpty(Field(decoded, "error")) ==> r == Success(decoded))
    ensures r.Success? ==> r.value != JNull && IsEmpty(Field(r.value, "error"))
    ensures r.Failure? ==> !r.error.TransportException?
  {
    // json_decode(null) sees an empty string and fails like malformed input
    var trimmed := if body.Some? then Some(PhpStrings.Trim(body.value)) else None;
    if trimmed == Some("") then Success(JStr(""))
    else
      var decoded := if trimmed.Some? then decode(trimmed.value) else JNull;
      if decoded == JNull then Failure(ServiceException(HttpError, ReadErrorMessage))
      else if !IsEmpty(Field(decoded, "error")) then
        match ExceptionMessage(Field(decoded, "error"))
        case Some(message) => Failure(ServiceException(ApiError, message))
        case None => Failure(MessageTypeError)
      else Success(decoded)
  }

  /** The request `fetch` sends for an action. */
  function FetchRequest(svc: Service, action: string, params: seq<(string, Param)>, http: Http): Request {
    Download(svc, ActionUrl(svc, action, http.buildQuery(params)), None, true)
  }

  /** Runs an API action: transport failures propagate, the body is
      classified, and with extended info the status travels along. */
  function Fetch(svc: Service, action: string, params: seq<(string, Param)>, extendedInfo: bool, http: Http): (r: Result<Fetched, Failure>)
    ensures var sent := http.send(FetchRequest(svc, action, params, http));
      && (sent.Failure? ==> r == Failure(TransportException(sent.error)))
      && (sent.Success? ==>
            var body := ClassifyBody(sent.value.data, http.decode);
            && (body.Failure? ==> r == Failure(body.error))
            && (body.Success? && !extendedInfo ==> r == Success(Plain(body.value)))
            && (body.Success? && extendedInfo ==> r == Success(Extended(sent.value.status, body.value))))
    ensures r.Success? ==> (r.value.Extended? <==> extendedInfo)
  {
    match http.send(FetchRequest(svc, action, params, http))
    case Failure(reason) => Failure(TransportException(reason))
    case Success(response) =>
      match ClassifyBody(response.data, http.decode)
      case Failure(e) => Failure(e)
      case Success(result) =>
        if !extendedInfo then Success(Plain(result))
        else Success(Extended(response.status, result))
  }

  /** The request carries the client's token exactly when one is set, and is
      addressed to the action's URL. */
  lemma FetchRequestCarriesToken(svc: Service, action: string, params: seq<(string, Param)>, http: Http)
    ensures var req := FetchRequest(svc, action, params, http);
      && req.url == svc.domain + "/api/2.0/" + action + "?" + http.buildQuery(params)
      && req.timeout == 60
      && (req.post.Some? <==> HasAccessToken(svc))
  {
  }
}

=== FILE: php_strings.dfy ===
/** The few PHP string primitives the modelled code relies on: `trim` with its
    default character list, `ctype_alnum` in the C locale, and `empty()` on a
    string. */
module PhpStrings {

  /** The characters PHP's `trim` strips by default: space, tab, line feed,
      carriage return, NUL and vertical tab. */
  predicate IsTrimChar(c: char) {
    c == ' ' || c == '\t' || c == '\n' || c == '\r' || c == '\0' || c == 11 as char
  }

  predicate AllTrimChars(s: string) {
    forall k :: 0 <= k < |s| ==> IsTrimChar(s[k])
  }

  /** Number of trim characters at the start of `s`. */
  function LeadingTrimCount(s: string): (n: nat)
    ensures n <= |s|
    ensures forall k :: 0 <= k < n ==> IsTrimChar(s[k])
    ensures n < |s| ==> !IsTrimChar(s[n])
  {
    if |s| == 0 || !IsTrimChar(s[0]) then 0
    else 1 + LeadingTrimCount(s[1..])
  }

  /** Number of trim characters at the end of `s`. */
  function TrailingTrimCount(s: string): (n: nat)
    ensures n <= |s|
    ensures forall k :: |s| - n <= k < |s| ==> IsTrimChar(s[k])
    ensures n < |s| ==> !IsTrimChar(s[|s| - n - 1])
  {
    if |s| == 0 || !IsTrimChar(s[|s| - 1]) then 0
    else 1 + TrailingTrimCount(s[..|s| - 1])
  }

  /** `r` is the slice of `s` that starts at index `i`. */
  predicate OccursAt(r: string, s: string, i: int) {
    0 <= i <= |s| - |r| && r == s[i..i + |r|]
  }

  /** `r` is the slice of `s` at index `i`, and everything before and after
      that slice is a trim character. */
  predicate TrimmedAt(r: string, s: string, i: int) {
    OccursAt(r, s, i) && AllTrimChars(s[..i]) && AllTrimChars(s[i + |r|..])
  }

  /** PHP `trim($s)`: `s` without its leading and trailing trim characters. */
  function Trim(s: string): (r: string)
    ensures |r| <= |s|
    ensures |r| > 0 ==> !IsTrimChar(r[0]) && !IsTrimChar(r[|r| - 1])
    ensures r == [] <==> AllTrimChars(s)
    ensures exists i :: TrimmedAt(r, s, i)
  {
    var lead := LeadingTrimCount(s);
    var rest := s[lead..];
    assert TrimmedAt(rest[..|rest| - TrailingTrimCount(rest)], s, lead);
    rest[..|rest| - TrailingTrimCount(rest)]
  }

  /** Trimming an already trimmed string changes nothing. */
  lemma TrimIdempotent(s: string)
    ensures Trim(Trim(s)) == Trim(s)
  {
  }

  /** PHP `empty()` on a string: only `""` and `"0"` are empty. */
  predicate IsEmptyString(s: string) {
    s == "" || s == "0"
  }

  predicate IsAsciiAlnum(c: char) {
    ('a' <= c <= 'z') || ('A' <= c <= 'Z') || ('0' <= c <= '9')
  }

  /** PHP `ctype_alnum($s)` for a string in the C locale: non-empty and made of
      ASCII letters and digits only. */
  predicate IsAlnum(s: string) {
    |s| > 0 && forall k :: 0 <= k < |s| ==> IsAsciiAlnum(s[k])
  }

  /** Joining two strings around a separator that the left part never
      contains can be undone: the separator's first occurrence splits them. */
  lemma JoinInjective(a: string, b: string, c: string, d: string, sep: char)
    requires sep !in a && sep !in c
    requires a + [sep] + b == c + [sep] + d
    ensures a == c && b == d
  {
    var x := a + [sep] + b;
    assert x[|a|] == sep && x[|c|] == sep;
    assert a == x[..|a|] == c;
    assert b == x[|a| + 1..] == d;
  }

  /** PHP's string form of an integer, in decimal with a leading `-` for a
      negative value. */
  function IntToString(i: int): (r: string)
    ensures |r| >= 1
    ensures i >= 0 ==> IsDecimal(r) && DecimalValue(r) == i
    ensures i < 0 ==> r[0] == '-' && IsDecimal(r[1..]) && DecimalValue(r[1..]) == -i
  {
    if i < 0 then "-" + NatToString(-i) else NatToString(i)
  }

  /** Decimal digits without a superfluous leading zero. */
  predicate IsDecimal(s: string) {
    && |s| >= 1
    && (forall k :: 0 <= k < |s| ==> '0' <= s[k] <= '9')
    && (s[0] == '0' ==> |s| == 1)
  }

  /** The number a string of decimal digits denotes. */
  function DecimalValue(s: string): int
    decreases |s|
  {
    if |s| == 0 then 0
    else DecimalValue(s[..|s| - 1]) * 10 + (s[|s| - 1] as int - '0' as int)
  }

  function NatToString(n: nat): (r: string)
    ensures IsDecimal(r) && DecimalValue(r) == n
  {
    var digit := ['0', '1', '2', '3', '4', '5', '6', '7', '8', '9'][n % 10];
    if n < 10 then [digit]
    else
      var prefix := NatToString(n / 10);
      assert (prefix + [digit])[..|prefix|] == prefix;
      prefix + [digit]
  }
}

=== FILE: scheduler.dfy ===
/** One scheduling pass over the registered tasks, reduced to the rules the
    retry integration test pins down: a due task is run, a retryable failure
    pushes its next run 3660 seconds past the slot it was due at and counts a
    retry, any other failure keeps the time its schedule gives. Locks, logging and the
    schedule's own date arithmetic are not modelled: each task carries the
    time its schedule yields for the next run. */
module Scheduler {
  import opened Wrappers
  import opened Timetables
  import PhpStrings

  /** Delay before a task that failed with a retryable failure runs again. */
  const RetryDelay: int := 3660

  /** The name a task is stored under when it has no method parameter. */
  function TaskNameOf(className: string, methodName: string): TaskName {
    className + "." + methodName
  }

  /** PHP class names contain no `.`, so a task name determines the class
      and the method. */
  lemma TaskNameInjective(class1: string, method1: string, class2: string, method2: string)
    requires '.' !in class1 && '.' !in class2
    requires TaskNameOf(class1, method1) == TaskNameOf(class2, method2)
    ensures class1 == class2 && method1 == method2
  {
    PhpStrings.JoinInjective(class1, method1, class2, method2, '.');
  }

  /** The scheduled time of the method's task, looked up by its name. */
  function ScheduledTimeForMethod(t: Timetable, className: string, methodName: string): Option<int> {
    GetScheduledTime(t, TaskNameOf(className, methodName))
  }

  /** How a task's run ended: normally, with a retryable failure, or with any
      other failure. */
  datatype RunOutcome = Succeeded | RetryableFailure | OtherFailure

  /** A registered task; `rescheduledTime` is the next run time its schedule
      yields for this pass. */
  datatype Task = Task(className: string, methodName: string, rescheduledTime: int) {
    function Name(): TaskName {
      TaskNameOf(className, methodName)
    }
  }

  /** Bookkeeping after a task has run at its due time `slot`: a retryable
      failure counts a retry and retries `RetryDelay` seconds after that slot;
      a success clears the count; a success or any other failure keeps the
      schedule's next time. No other task's entry changes. */
  function ApplyOutcome(t: Timetable, name: TaskName, outcome: RunOutcome, slot: int, rescheduled: int): (r: Timetable)
    ensures GetScheduledTime(r, name) == Some(if outcome == RetryableFailure then slot + RetryDelay else rescheduled)
    ensures outcome == Succeeded ==> GetRetryCount(r, name) == 0
    ensures outcome == RetryableFailure ==> GetRetryCount(r, name) == GetRetryCount(t, name) + 1
    ensures outcome == OtherFailure ==> GetRetryCount(r, name) == GetRetryCount(t, name)
    ensures forall other :: other != name ==>
      GetScheduledTime(r, other) == GetScheduledTime(t, other) && GetRetryCount(r, other) == GetRetryCount(t, other)
  {
    match outcome
    case Succeeded => SetScheduledTime(ClearRetryCount(t, name), name, rescheduled)
    case RetryableFailure => SetScheduledTime(IncrementRetryCount(t, name), name, slot + RetryDelay)
    case OtherFailure => SetScheduledTime(t, name, rescheduled)
  }

  predicate IsDue(t: Timetable, name: TaskName, now: int) {
    name in t.scheduled && t.scheduled[name] <= now
  }

  /** One task of the pass: a task seen for the first time is only scheduled,
      a due task is run and its outcome applied, a task not yet due is left
      alone. The flag says whether the task ran. */
  function RunTask(t: Timetable, task: Task, now: int, run: TaskName -> RunOutcome): (Timetable, bool) {
    var name := task.Name();
    if name !in t.scheduled then (SetScheduledTime(t, name, task.rescheduledTime), false)
    else if t.scheduled[name] <= now then (ApplyOutcome(t, name, run(name), t.scheduled[name], task.rescheduledTime), true)
    else (t, false)
  }

  /** A pass over the tasks in the order they were loaded; returns the new
      timetable and the names of the tasks that ran, in order. A task that is
      not in the list keeps its entry. */
  function RunPass(t: Timetable, tasks: seq<Task>, now: int, run: TaskName -> RunOutcome): (r: (Timetable, seq<TaskName>))
    ensures forall name :: (forall i :: 0 <= i < |tasks| ==> tasks[i].Name() != name) ==>
      GetScheduledTime(r.0, name) == GetScheduledTime(t, name) && GetRetryCount(r.0, name) == GetRetryCount(t, name)
    ensures forall k :: 0 <= k < |r.1| ==> exists i :: 0 <= i < |tasks| && tasks[i].Name() == r.1[k]
  {
    if |tasks| == 0 then (t, [])
    else
      var before := RunPass(t, tasks[..|tasks| - 1], now, run);
      var last := tasks[|tasks| - 1];
      var step := RunTask(before.0, last, now, run);
      var ran := before.1 + (if step.1 then [last.Name()] else []);
      assert forall k :: 0 <= k < |before.1| ==> ran[k] == before.1[k];
      (step.0, ran)
  }

  predicate DistinctNames(tasks: seq<Task>) {
    forall i, j :: 0 <= i < j < |tasks| ==> tasks[i].Name() != tasks[j].Name()
  }

  /** Within a pass, each task's entry ends up as if its task had been
      handled alone on the timetable the pass started from, provided no two
      tasks share a name. */
  lemma {:induction false} RunPassEntry(t: Timetable, tasks: seq<Task>, now: int, run: TaskName -> RunOutcome, i: nat)
    requires DistinctNames(tasks) && i < |tasks|
    ensures var name := tasks[i].Name();
      var r := RunPass(t, tasks, now, run);
      var alone := RunTask(t, tasks[i], now, run);
      && GetScheduledTime(r.0, name) == GetScheduledTime(alone.0, name)
      && GetRetryCount(r.0, name) == GetRetryCount(alone.0, name)
      && (name in r.1 <==> alone.1)
  {
    var name := tasks[i].Name();
    var prefix := tasks[..|tasks| - 1];
    var before := RunPass(t, prefix, now, run);
    var last := tasks[|tasks| - 1];
    var step := RunTask(before.0, last, now, run);
    assert RunPass(t, tasks, now, run).0 == step.0;
    assert RunPass(t, tasks, now, run).1 == before.1 + (if step.1 then [last.Name()] else []);
    if i == |tasks| - 1 {
      // the earlier tasks have other names, so the entry is still the original one
      assert forall j :: 0 <= j < |prefix| ==> prefix[j].Name() != name;
      assert GetScheduledTime(before.0, name) == GetScheduledTime(t, name);
      assert GetRetryCount(before.0, name) == GetRetryCount(t, name);
      RunTaskDependsOnlyOnEntry(before.0, t, last, now, run);
      assert name !in before.1;
    } else {
      assert prefix[i] == tasks[i];
      RunPassEntry(t, prefix, now, run, i);
      assert last.Name() != name;
    }
  }

  /** Handling a task reads and writes only that task's entry. */
  lemma RunTaskDependsOnlyOnEntry(t1: Timetable, t2: Timetable, task: Task, now: int, run: TaskName -> RunOutcome)
    requires GetScheduledTime(t1, task.Name()) == GetScheduledTime(t2, task.Name())
    requires GetRetryCount(t1, task.Name()) == GetRetryCount(t2, task.Name())
    ensures var r1 := RunTask(t1, task, now, run);
      var r2 := RunTask(t2, task, now, run);
      && GetScheduledTime(r1.0, task.Name()) == GetScheduledTime(r2.0, task.Name())
      && GetRetryCount(r1.0, task.Name()) == GetRetryCount(r2.0, task.Name())
      && r1.1 == r2.1
  {
  }

  /** A task whose stored time has come is run in the pass, and its entry
      follows the outcome rule. */
  lemma {:induction false} DueTaskRuns(t: Timetable, tasks: seq<Task>, now: int, run: TaskName -> RunOutcome, i: nat)
    requires DistinctNames(tasks) && i < |tasks|
    requires IsDue(t, tasks[i].Name(), now)
    ensures var name := tasks[i].Name();
      var r := RunPass(t, tasks, now, run);
      && name in r.1
      && GetScheduledTime(r.0, name) ==
           Some(if run(name) == RetryableFailure then t.scheduled[name] + RetryDelay else tasks[i].rescheduledTime)
      && (run(name) == RetryableFailure ==> GetRetryCount(r.0, name) == GetRetryCount(t, name) + 1)
      && (run(name) == OtherFailure ==> GetRetryCount(r.0, name) == GetRetryCount(t, name))
      && (run(name) == Succeeded ==> GetRetryCount(r.0, name) == 0)
  {
    RunPassEntry(t, tasks, now, run, i);
  }

  /** A task without a timetable entry is scheduled at its schedule's time and
      does not run in this pass; a task not yet due neither runs nor moves. */
  lemma {:induction false} NotDueTaskWaits(t: Timetable, tasks: seq<Task>, now: int, run: TaskName -> RunOutcome, i: nat)
    requires DistinctNames(tasks) && i < |tasks|
    requires !IsDue(t, tasks[i].Name(), now)
    ensures var name := tasks[i].Name();
      var r := RunPass(t, tasks, now, run);
      && name !in r.1
      && GetScheduledTime(r.0, name) ==
           (if name in t.scheduled then GetScheduledTime(t, name) else Some(tasks[i].rescheduledTime))
      && GetRetryCount(r.0, name) == GetRetryCount(t, name)
  {
    RunPassEntry(t, tasks, now, run, i);
  }

  /** The retryable-failure test: the task was due at `now`, the pass runs
      60 seconds later, the daily schedule is mocked to `now`, and the method
      throws a retryable exception; afterwards it is scheduled at
      `now + 3660`. */
  lemma RetryableFailureScenario(className: string, now: int, dailyTime: int)
    ensures var name := TaskNameOf(className, "exceptionalTask");
      var t := Timetable(map[name := now], map[]);
      var r := RunPass(t, [Task(className, "exceptionalTask", dailyTime)], now + 60, _ => RetryableFailure);
      && name in r.1
      && ScheduledTimeForMethod(r.0, className, "exceptionalTask") == Some(now + 3660)
      && GetRetryCount(r.0, name) == 1
  {
  }

  /** The ordinary-failure test: the task was due at `now`, the pass runs 60
      seconds later, the specific-time schedule yields `now + 50000`, and the
      method throws an ordinary exception; afterwards it is scheduled at
      `now + 50000`, with no retry. */
  lemma OtherFailureScenario(className: string, now: int)
    ensures var name := TaskNameOf(className, "normalExceptionTask");
      var t := Timetable(map[name := now], map[]);
      var r := RunPass(t, [Task(className, "normalExceptionTask", now + 50000)], now + 60, _ => OtherFailure);
      && name in r.1
      && ScheduledTimeForMethod(r.0, className, "normalExceptionTask") == Some(now + 50000)
      && GetRetryCount(r.0, name) == 0
  {
  }
}

=== FILE: timetable.dfy ===
/** The scheduler's timetable: the next run time of every task, by task name,
    and the number of times each task has been retried after a retryable
    failure. Persistence through the option store is not modelled; the
    timetable is a value. */
module Timetables {
  import opened Wrappers

  /** A task name, `Class.method`. */
  type TaskName = string

  datatype Timetable = Timetable(scheduled: map<TaskName, int>, retries: map<TaskName, nat>)

  const Empty := Timetable(map[], map[])

  /** The retry count of a task; a task that never failed with a retryable
      failure has a count of zero. */
  function GetRetryCount(t: Timetable, name: TaskName): nat {
    if name in t.retries then t.retries[name] else 0
  }

  function GetScheduledTime(t: Timetable, name: TaskName): Option<int> {
    if name in t.scheduled then Some(t.scheduled[name]) else None
  }

  /** Raises the retry count of `name` by one; every other count and every
      scheduled time is kept. */
  function IncrementRetryCount(t: Timetable, name: TaskName): (r: Timetable)
    ensures GetRetryCount(r, name) == GetRetryCount(t, name) + 1
    ensures forall other :: other != name ==> GetRetryCount(r, other) == GetRetryCount(t, other)
    ensures r.scheduled == t.scheduled
  {
    t.(retries := t.retries[name := GetRetryCount(t, name) + 1])
  }

  /** Resets the retry count of `name` to zero; every other count and every
      scheduled time is kept. */
  function ClearRetryCount(t: Timetable, name: TaskName): (r: Timetable)
    ensures GetRetryCount(r, name) == 0
    ensures forall other :: other != name ==> GetRetryCount(r, other) == GetRetryCount(t, other)
    ensures r.scheduled == t.scheduled
  {
    t.(retries := t.retries - {name})
  }

  /** Sets the next run time of `name`; nothing else changes. */
  function SetScheduledTime(t: Timetable, name: TaskName, time: int): (r: Timetable)
    ensures GetScheduledTime(r, name) == Some(time)
    ensures forall other :: other != name ==> GetScheduledTime(r, other) == GetScheduledTime(t, other)
    ensures forall other :: GetRetryCount(r, other) == GetRetryCount(t, other)
  {
    t.(scheduled := t.scheduled[name := time])
  }

  /** `n` increments of the same task in a row. */
  function IncrementRetryCountTimes(t: Timetable, name: TaskName, n: nat): (r: Timetable)
    ensures GetRetryCount(r, name) == GetRetryCount(t, name) + n
    ensures forall other :: other != name ==> GetRetryCount(r, other) == GetRetryCount(t, other)
    ensures r.scheduled == t.scheduled
  {
    if n == 0 then t else IncrementRetryCount(IncrementRetryCountTimes(t, name, n - 1), name)
  }

  /** However often a task was retried, clearing its count brings it back to
      zero and leaves every other task's count as it was. */
  lemma ClearAfterIncrements(t: Timetable, a: TaskName, b: TaskName, n: nat)
    requires a != b
    ensures GetRetryCount(ClearRetryCount(IncrementRetryCountTimes(t, a, n), a), a) == 0
    ensures GetRetryCount(ClearRetryCount(IncrementRetryCountTimes(t, a, n), a), b) == GetRetryCount(t, b)
  {
  }

  /** The retry-count sequence of the integration test, replayed on an empty
      timetable. */
  lemma RetryCountScenario(task1: TaskName, task2: TaskName)
    requires task1 != task2
    ensures GetRetryCount(Empty, task1) == 0
    ensures var t1 := IncrementRetryCount(Empty, task1);
      && GetRetryCount(t1, task1) == 1
      && var t2 := IncrementRetryCount(IncrementRetryCount(t1, task2), task2);
      && GetRetryCount(t2, task2) == 2
      && var t3 := IncrementRetryCount(t2, task1);
      && GetRetryCount(t3, task1) == 2
      && var t4 := ClearRetryCount(t3, task1);
      && GetRetryCount(t4, task1) == 0
      && GetRetryCount(t4, task2) == 2
      && GetRetryCount(ClearRetryCount(t4, task2), task1) == 0
  {
  }
}

=== FILE: wrappers.dfy ===
/** Plain sum types shared by the whole model: PHP's nullable values become
    `Option`, and thrown exceptions become the `Failure` arm of a `Result`. */
module Wrappers {

  datatype Option<+T> = None | Some(value: T) {

    /** Returns the value in `Some`, or `default` for `None` (PHP's `??`). */
    function GetOr(default: T): T {
      match this
      case Some(v) => v
      case None => default
    }
  }

  datatype Result<+R, +E> = Success(value: R) | Failure(error: E)
}
